=== FILE: README.md ===
# Pensieve Teams content script — message-change monitor

This project models, in Dafny, the core of the Microsoft Teams content script of the Pensieve
browser extension (`extension/src/teams/content.js`). The script watches the Teams chat page. Every
two seconds it reads the last chat message from the DOM. When that message changed and was not
sent by the current user, it asks the Pensieve memory API for an answer and offers the answer as a
"Pensieve Suggestion" box above the compose area. A one-second URL check resets this monitor after
in-app navigation.

The modules follow the script's parts:

- `JsText`: the JavaScript string operations the script relies on: `trim`, `startsWith`, and a
  number in a template literal.
- `DomReader`: `getTextarea` and `getLastMessage`. The page is an abstract `Dom`. It gives what
  `querySelector`, `querySelectorAll` and `parentElement` return, and every element carries its
  `textContent` and `innerText`. Each selector fallback loop is a method with loop invariants,
  proved against a first-match function.
- `Auth`: `getStoredAuth` and the checks `makeRequest` makes before `fetch`. The storage read and
  the clock are inputs.
- `Presenter`: the suggestion box. `Page` holds the `#pensieve-suggestion` elements. Creating a box
  first removes the old one, so at most one box is ever live.
- `Retrieval`: `retrieveMemories`. A `World` stands for everything outside the script: the two
  credential reads, the outcome of `fetch` and `response.json()`, and the compose area present when
  the box is placed.
- `Monitor`: the monitor's state machine. `MessageMonitor` is a class with the module-level
  variables as fields. Its methods are proved against pure transition functions on `State`. The
  lemmas about `State` state the properties of the state machine.

Modelling decisions:

- `lastKnownMessage` is an `Option<string>`. The test at content.js:566 uses loose `!=` with
  optional chaining, and under it `null` and `undefined` are equal, so both become `None`.
- Timers are explicit handles. `setInterval` returns the next number from a counter, and
  `clearInterval` removes the handle from the set of running intervals. A tick names its interval;
  a tick whose interval was cleared does nothing.
- A tick reads the page with `getLastMessage`, and `retrieveMemories` reads it again at
  content.js:214. No `await` separates the two reads, so both see the same page. The model passes
  the same `Dom` to both reads. As a result, the path where `retrieveMemories` rejects (its own
  read throws) cannot be reached from a tick. The tick still handles that path, as the source does.
- Each tick and each URL check is one atomic event.

Three behaviours of the code are easy to misread, and the model follows the code in each:

- A tick with no observation triggers a retrieval when a message was known. That retrieval only
  shows "No last message for memory retrieval" and sets the known message to null.
- `startAutoRetrieval` is not a no-op while monitoring runs. It clears the running interval and
  installs a new one.
- The content fallback does not always fall back to the bubble's own text. When no alternative
  selector yields text, the element matched by the last selector (`span`) is used, even if its text
  is blank. The bubble's own text is used only when `span` matches nothing.

## Model

| member | source | states |
|---|---|---|
| `JsText.Trim` | extension/src/teams/content.js:198-204 | the trimmed text never starts or ends with a JavaScript whitespace or line-terminator character |
| `JsText.TrimOnlyStripsEnds` | extension/src/teams/content.js:198-204 | the trimmed text is a slice of the input, and everything cut off before and after it is whitespace; with `Trim`'s ends, exactly the leading and trailing whitespace is removed |
| `JsText.TrimBlankIff` | extension/src/teams/content.js:198-201 | a text trims to empty exactly when every character of it is whitespace |
| `JsText.TrimIdempotent` | extension/src/teams/content.js:203-204 | a trimmed text is unchanged by trimming again |
| `JsText.Decimal` | extension/src/teams/content.js:237-239 | the status in `HTTP ${status}` is written as decimal digits with no leading zero; only 0 starts with `0`, and it is written as the single digit `0` |
| `JsText.DecimalValue` | extension/src/teams/content.js:237-239 | the digits written for a status read back as that same number |
| `DomReader.FirstFound` | extension/src/teams/content.js:126-135 | the index found is the first selector that matches; every earlier selector misses |
| `DomReader.FirstMatch` | extension/src/teams/content.js:63-73 | the result is the match of the first matching selector in list order; it is null exactly when no selector matches |
| `DomReader.SelectFirst` | extension/src/teams/content.js:126-135 | the loop that breaks at the first match ends holding that first match, or null when nothing matched |
| `DomReader.GetTextarea` | extension/src/teams/content.js:63-73 | the compose input is the element of the first input selector that matches; null only when none matches |
| `DomReader.ContainerOf` | extension/src/teams/content.js:108-155 | primary selector first, then the alternatives in order, then the parent of the first message-like element; null exactly when all three fail |
| `DomReader.FindContainer` | extension/src/teams/content.js:108-155 | the container lookup as written returns the container of that chain |
| `DomReader.FirstWithText` | extension/src/teams/content.js:184-192 | the index found is the first content alternative whose match has non-blank text |
| `DomReader.TextFallback` | extension/src/teams/content.js:184-192 | after the alternatives loop, `content` is the match of the first selector with text, or, when none has text, the last selector's match |
| `DomReader.SelectWithText` | extension/src/teams/content.js:184-192 | the loop that breaks at the first match with text ends holding what that rule says |
| `DomReader.HasTextIffNonBlank` | extension/src/teams/content.js:186 | `HasText`, the break test `content && content.textContent?.trim()` of the content loop, holds exactly for a match whose `textContent` has a non-whitespace character; `ContentOf` breaks at the first alternative that passes it |
| `DomReader.ContentOf` | extension/src/teams/content.js:166-193 | the primary content match if any; otherwise the first alternative whose match has non-blank text; otherwise whatever `span` matched |
| `DomReader.SelectContent` | extension/src/teams/content.js:166-193 | the content loop that breaks at the first match with text ends with the content element of that rule |
| `DomReader.ExtractedText` | extension/src/teams/content.js:195 | the `or` chain of line 195: the bubble's own text when there is no content element; otherwise its `textContent` unless that is empty, then its `innerText`; the result is empty only when both are; `LastMessageOf` trims this text |
| `DomReader.LastMessageOf` | extension/src/teams/content.js:157-207 | no container gives null; a container with no bubbles throws the innerHTML TypeError; a message's text is the text extracted from the content element of the last bubble, trimmed, and is non-empty; it is from the current user iff the last bubble has a message-from-me descendant |
| `DomReader.NullIffNoContainerOrBlank` | extension/src/teams/content.js:195-201 | the result is null exactly when no container is found or the last bubble's extracted text is all whitespace |
| `DomReader.GetLastMessage` | extension/src/teams/content.js:104-208 | `getLastMessage` as written returns the read that rule describes |
| `Auth.GetStoredAuth` | extension/src/teams/content.js:32-42 | authenticated iff the token and expiry are truthy and the clock is before the expiry; a failed storage read is not authenticated; the token is the stored one |
| `Auth.ValidIffUnexpired` | extension/src/teams/content.js:35 | with a clock not before the epoch: valid iff a non-empty token is stored, an expiry is stored, and the clock is before that expiry |
| `Auth.ResolveUrl` | extension/src/teams/content.js:50 | the full URL always starts with "http"; a URL starting with "http" is kept, any other gets the API base URL in front |
| `Auth.ResolveUrlIdempotent` | extension/src/teams/content.js:50 | resolving an already resolved URL changes nothing |
| `Auth.MakeRequest` | extension/src/teams/content.js:44-58 | throws 'Not authenticated' exactly when the stored credentials are not valid; otherwise sends to the resolved URL with the stored token as bearer |
| `Presenter.SuggestionText` | extension/src/teams/content.js:251-255 | the suggestion is the fixed "Based on our conversation history: " prefix followed by the answer |
| `Presenter.Preview` | extension/src/teams/content.js:367 | texts of at most 200 characters are shown whole; longer ones show their first 200 characters and then '...' |
| `Presenter.PreviewKeepsOnlyPrefix` | extension/src/teams/content.js:367 | long texts that share their first 200 characters have the same preview |
| `Presenter.ComposeArea` | extension/src/teams/content.js:269-271 | the anchor is the first compose selector that matches; null only when none does |
| `Presenter.Placed` | extension/src/teams/content.js:261-383 | after placement at most one box exists; there is one exactly when a compose area was found and the memories have sources; it shows the preview and keeps the full answer |
| `Presenter.PlacementNotices` | extension/src/teams/content.js:273-277 | a missing compose area produces the "Could not create suggested reply" warning, and nothing else does |
| `Presenter.PlacementError` | extension/src/teams/content.js:377 | building the box throws the `length` TypeError exactly when a compose area exists but `sources` is missing |
| `Presenter.Page.CreateSuggestedReply` | extension/src/teams/content.js:261-383 | the old box is removed before the new one is inserted, so at most one box is live; the boxes, notices and thrown error are those of the placement rule |
| `Presenter.Page.Dismiss` | extension/src/teams/content.js:403-417 | closing or auto-dismissing removes that box only, and does nothing if it is already gone |
| `Presenter.Page.UseSuggestion` | extension/src/teams/content.js:390-397 | the full answer goes to the input `getTextarea` finds (the element of the first input selector that matches), with a success notice; the box is removed either way |
| `Retrieval.RetrievePath` | extension/src/teams/content.js:234-235 | the relative request path: it does not start with "http", so `makeRequest` puts the API base URL in front, and it carries the message text right after `?q=`, before `&top_k=5`; `Attempt` and `RequestOnlyForMessage` rely on it |
| `Retrieval.IsOkStatus` | extension/src/teams/content.js:237 | `response.ok` holds exactly for a status in the 2xx class; `Attempt` answers only for such a status and otherwise fails with `HTTP <status>` |
| `Retrieval.Attempt` | extension/src/teams/content.js:211-243 | no message when the second read is null or empty; not signed in on the first credential read; an answer only when both credential reads are valid, the status is 2xx and the body parses; any request goes to the API base URL for the message text; a request is sent whenever the message is non-empty and both credential reads are valid; a network or parse failure carries the rejection's own message, a non-2xx status `HTTP <status>` |
| `Retrieval.Report` | extension/src/teams/content.js:217-248 | every attempt past the message check begins with the info notice; every failure ends with an error; a success notice appears iff an answer arrived |
| `Retrieval.RetrieveMemories` | extension/src/teams/content.js:211-249 | its own read rejects the call when it throws; otherwise the shown notices are the report of the attempt, and the page's boxes change only when an answer arrived; the page's box counter never decreases, so a new box never reuses the serial of an earlier one and a pending auto-dismiss cannot remove it |
| `Retrieval.RetrieveFor` | extension/src/teams/content.js:217-248 | after the read, the notices are built in the order the code shows them and equal the report of the attempt, the placement's own warning and caught error included; the boxes change only on an answer; the page's box counter never decreases, so a new box never reuses the serial of an earlier one and a pending auto-dismiss cannot remove it |
| `Retrieval.RequestOnlyForMessage` | extension/src/teams/content.js:222-235 | a request is sent only for a non-empty message with both credential reads valid, and its URL carries that message's text as the query |
| `Monitor.Initial` | extension/src/teams/content.js:26-28 | at start-up no interval runs, no message is known, and the current URL is the page's |
| `Monitor.TextOf` | extension/src/teams/content.js:569 | `currentMessage?.text` is null exactly when there is no observation, and otherwise the observed message's text |
| `Monitor.ShouldTrigger` | extension/src/teams/content.js:566 | no observation triggers iff a message is known; an observation triggers iff it is not the user's own and its text differs from the known one |
| `Monitor.StartState` | extension/src/teams/content.js:552-576 | the timer holds a fresh handle; from a valid state, it is then the only running interval; the known message is kept |
| `Monitor.StopState` | extension/src/teams/content.js:578-585 | the timer and the known message become null, and no interval runs any more |
| `Monitor.TickState` | extension/src/teams/content.js:561-575 | only a tick that calls retrieval changes state, and it stores the observed text; a throwing read or a cleared interval changes nothing |
| `Monitor.TickReport` | extension/src/teams/content.js:561-575 | a cleared interval shows nothing; a throwing read shows one auto-retrieval error; a retrieving tick shows the retrieval's report; a quiet tick shows nothing |
| `Monitor.UrlCheckState` | extension/src/teams/content.js:646-658 | on a new address: record it, zero the retrieval time, forget the known message, and restart on a single fresh interval; on the same address, nothing |
| `Monitor.SamePageIsQuietAfterTick` | extension/src/teams/content.js:566-569 | after one tick, a tick on the same page changes nothing, shows nothing and sends nothing, whatever the retrieval's outcome was |
| `Monitor.ThrowingReadKeepsState` | extension/src/teams/content.js:562-574 | a read that throws keeps the known message, sends no request and shows exactly one error |
| `Monitor.NoRequestForKnownOrOwnMessage` | extension/src/teams/content.js:566-568 | no request is ever sent for the user's own message or for the known text; the request carries the observed text |
| `Monitor.NoObservation` | extension/src/teams/content.js:566-569 | with nothing observed, a tick retrieves iff a message was known; it then shows only the no-message warning, sends nothing, and the known message becomes null |
| `Monitor.StoppedMonitorIsSilent` | extension/src/teams/content.js:578-585 | after stop, no tick changes state or shows anything |
| `Monitor.RestartRetriggers` | extension/src/teams/content.js:552-585 | after stop and start, the message seen before triggers again on the new interval, and the old interval stays silent |
| `Monitor.TwoNavigations` | extension/src/teams/content.js:646-658 | two navigations in a row leave the second address, no known message, and exactly one running interval |
| `Monitor.HelloScenario` | extension/src/teams/content.js:566-569 | incoming "Hello", "Hello", "Hello there": only the first and third reads retrieve |
| `Monitor.AtMostOneInterval` | extension/src/teams/content.js:552-585 | over any sequence of starts, stops, ticks and URL checks, at most one monitor interval runs, and it is the one the timer variable holds |
| `Monitor.MessageMonitor.constructor` | extension/src/teams/content.js:611-620 | start-up state with monitoring started on handle 1 |
| `Monitor.MessageMonitor.StartAutoRetrieval` | extension/src/teams/content.js:552-576 | clears the running interval before installing a new one; the new state is that of the start rule |
| `Monitor.MessageMonitor.StopAutoRetrieval` | extension/src/teams/content.js:578-585 | clears the interval and nulls the timer and the known message, as the stop rule says |
| `Monitor.MessageMonitor.Tick` | extension/src/teams/content.js:561-575 | the interval callback: state, notices and suggestion boxes are those of the tick rules, and the page is untouched unless retrieval is called; the page's box counter never decreases, so a new box never reuses the serial of an earlier one and a pending auto-dismiss cannot remove it |
| `Monitor.MessageMonitor.CheckUrl` | extension/src/teams/content.js:646-658 | the URL watcher body; the new state is that of the URL-check rule |

## Left out

- `fetch`, `chrome.storage.local` and `response.json()` are foreign calls. They are parameters: the two credential reads and the fetch outcome in a `Retrieval.World`. `Date.now()` is a field of each credential read.
- `URLSearchParams` escaping of the query is not modelled. The request URL carries the message text unescaped.
- Auth.MakeRequest: the caller's options, the Content-Type header and the `fetch` call itself are not modelled. The model returns only the URL and the Authorization header.
- Auth.GetStoredAuth: stored values are a string token and an integer expiry. Other JavaScript values, such as a NaN expiry, are not modelled.
- Presenter.Preview: the 200-character limit counts Unicode scalar values, while JavaScript counts UTF-16 code units.
- Retrieval.Attempt: a response body that parses to `null` is not modelled. In the code, reading `memories.answer` (content.js:253) then throws after "Retrieved answers" is shown. The caught error follows, `createSuggestedReply` is never reached, and the old box stays. A body that parses to a number, string or boolean is not modelled either. There `.answer` is `undefined` and nothing throws, so `createSuggestedReply` is reached and removes the old box. It then warns when no compose area is found, and otherwise throws at `sources.length` (content.js:377). That is the `sources`-missing path of `Presenter.PlacementError`, with the missing answer admitted under `Presenter.Placed`.
- Presenter.Placed: a response whose `answer` is missing, which would show "undefined", is not modelled. A compose area without a parent node is not modelled either.
- The HTML and CSS markup of the suggestion box, `showMemoryDetails` and `showNotification`: presentation only. Notices keep their level and text.
- The 15 s and 2 s fades of the auto-dismiss and the 3 s notice removal are timing, not logic. Dismissal is one event, `Presenter.Page.Dismiss`.
- `setTextContent` (selection and range handling), `bindEvents`/`bindAll` with the keyboard shortcut, and the `MutationObserver` are DOM and UI plumbing.
- The `chrome.runtime.onMessage` handler (PING and RETRIEVE_MEMORIES_FOR_CONTEXT) is part of the extension's messaging, not the monitor.
- `generateContextualReply` is never called.
- `CONFIG.minTextLength`, `retrievalCooldown` and `autoRetrievalInterval` are never read. `console` logging is not modelled.
- The `timestamp` of a `getLastMessage` result is never read, so it is not modelled.
- Overlapping ticks while `await retrieveMemories()` is pending are not modelled: each tick completes before the next event. The source does not guard against this interleaving.
- The URL watcher's own one-second interval is never cleared, so it has no handle in the model.
- The abstract `Dom` does not relate `querySelector` to `querySelectorAll`. Each is taken as given.
- A `showNotification` call that itself throws is not modelled.

=== FILE: auth.dfy ===
/** The `auth` helper of the content script (content.js:30-60): whether the stored credentials are
    valid, and which URL and bearer token a request goes out with. The storage read and the clock
    are inputs; `fetch` itself is not part of this model. */
module Auth {
  import opened Wrappers
  import opened JsText

  const ApiBaseUrl := "http://localhost:8000"

  /** One `chrome.storage.local.get(['idToken', 'expiresAt'])` together with the `Date.now()` read
      beside it; `StorageError` is a rejected storage read. */
  datatype StoredAuth =
    | StorageError
    | Stored(idToken: Option<string>, expiresAt: Option<int>, now: int)

  datatype AuthData = Authenticated(token: string) | NotAuthenticated

  /** What `makeRequest` hands to `fetch`: the full URL and the Authorization header. */
  datatype Request = Request(url: string, authorization: string)

  /** `getStoredAuth` (content.js:32-42): authenticated exactly when the token and the expiry are
      both truthy and the clock is before the expiry; a failed storage read is not authenticated. */
  function GetStoredAuth(stored: StoredAuth): (a: AuthData)
    ensures a.Authenticated? <==>
            && stored.Stored?
            && stored.idToken.Some? && stored.idToken.value != ""
            && stored.expiresAt.Some? && stored.expiresAt.value != 0
            && stored.now < stored.expiresAt.value
    ensures a.Authenticated? ==> a.token == stored.idToken.value
  {
    match stored
    case StorageError => NotAuthenticated
    case Stored(idToken, expiresAt, now) =>
      if idToken.Some? && idToken.value != "" && expiresAt.Some? && expiresAt.value != 0
         && now < expiresAt.value
      then Authenticated(idToken.value)
      else NotAuthenticated
  }

  /** With a clock that is not before the epoch, the truthiness test on the expiry adds nothing:
      valid means a non-empty token, an expiry, and a clock before it. */
  lemma ValidIffUnexpired(stored: StoredAuth)
    requires stored.Stored? && stored.now >= 0
    ensures GetStoredAuth(stored).Authenticated? <==>
            stored.idToken.Some? && stored.idToken.value != ""
            && stored.expiresAt.Some? && stored.now < stored.expiresAt.value
  {
  }

  /** Line 50: a URL that starts with "http" is used as given, any other is appended to the API
      base URL. */
  function ResolveUrl(url: string): (full: string)
    ensures StartsWith(full, "http")
    ensures StartsWith(url, "http") ==> full == url
    ensures !StartsWith(url, "http") ==> full == ApiBaseUrl + url && |full| > |url|
  {
    if StartsWith(url, "http") then url else ApiBaseUrl + url
  }

  /** Resolving a resolved URL changes nothing. */
  lemma ResolveUrlIdempotent(url: string)
    ensures ResolveUrl(ResolveUrl(url)) == ResolveUrl(url)
  {
  }

  /** `makeRequest` (content.js:44-59) up to the `fetch` call: it throws 'Not authenticated'
      unless the stored credentials are valid, and otherwise sends to the resolved URL with the
      stored token as bearer. */
  function MakeRequest(url: string, stored: StoredAuth): (r: Result<Request>)
    ensures r.Thrown? <==> GetStoredAuth(stored).NotAuthenticated?
    ensures r.Thrown? ==> r.message == "Not authenticated"
    ensures r.Ok? ==> r.value.url == ResolveUrl(url)
                      && r.value.authorization == "Bearer " + stored.idToken.value
  {
    match GetStoredAuth(stored)
    case NotAuthenticated => Thrown("Not authenticated")
    case Authenticated(token) => Ok(Request(ResolveUrl(url), "Bearer " + token))
  }
}

=== FILE: dom_reader.dfy ===
/** The DOM reader of the Teams content script: locating the compose box and the message list, and
    extracting the last message's text and authorship (content.js:62-73 and 103-208).

    The page is abstract: a `Dom` gives, for every selector, what `querySelector` and
    `querySelectorAll` would return, on the document or below an element, and each element carries
    its `textContent` and `innerText` as data. */
module DomReader {
  import opened Wrappers
  import opened JsText

  datatype Element = Element(id: nat, textContent: string, innerText: string)

  datatype Dom = Dom(
    query: string -> Option<Element>,            // document.querySelector(selector)
    queryAll: string -> seq<Element>,            // document.querySelectorAll(selector), in document order
    parent: Element -> Option<Element>,          // element.parentElement
    find: (Element, string) -> Option<Element>,  // element.querySelector(selector)
    findAll: (Element, string) -> seq<Element>)  // element.querySelectorAll(selector), in document order

  /** What `getLastMessage` returns when it returns an object (its `timestamp` is never read). */
  datatype Message = Message(text: string, isFromCurrentUser: bool)

  /** A read of the last message: `Ok(None)` is the script's `null`, `Thrown` the TypeError of a
      container without message bubbles. */
  type Read = Result<Option<Message>>

  const TextInputs: seq<string> := [
    "[data-tid=\"ckeditor\"]",
    ".ck-editor__editable",
    "[data-tid=\"message-compose-box\"] [contenteditable=\"true\"]",
    "div[contenteditable=\"true\"][role=\"textbox\"]",
    "[data-tid=\"meeting-chat-input\"]"]

  const MessageContainer := "[data-tid=\"conversation-pane\"]"

  const ContainerAlternatives: seq<string> := [
    "[data-tid=\"chat-pane-list\"]",
    "[data-tid=\"virtualized-list\"]",
    "[data-tid=\"chat-pane\"]",
    "[data-tid=\"message-list\"]",
    "[role=\"log\"]",
    "[role=\"main\"]",
    ".ui-chat__messagelist",
    ".ts-message-list",
    ".messages-container"]

  /** The last-resort query for anything that looks like a message. */
  const MessageLike := "[data-tid*=\"message\"], [class*=\"message\"], [role=\"listitem\"]"

  const MessageBubble := "[data-tid=\"chat-pane-message\"]"

  const MessageContent := ".ui-chat__message__body"

  const ContentAlternatives: seq<string> := [
    ".message-body",
    "[data-tid=\"message-body\"]",
    ".ui-chat__message__body",
    ".ts-message-body",
    "[data-tid=\"message-content\"]",
    ".content",
    "p",
    "div",
    "span"]

  const FromMe := "[data-tid=\"message-from-me\"]"

  /** What V8 says when `lastMessage.innerHTML` is read from `undefined`. */
  const NoBubbleError := "Cannot read properties of undefined (reading 'innerHTML')"

  // ---------------------------------------------------------------------------------------------
  // First match over an ordered selector list

  /** The position of the first selector that `query` matches, or `|selectors|` if none does. */
  function FirstFound(query: string -> Option<Element>, selectors: seq<string>): (k: nat)
    ensures k <= |selectors|
    ensures forall j :: 0 <= j < k ==> query(selectors[j]).None?
    ensures k < |selectors| ==> query(selectors[k]).Some?
  {
    if selectors == [] then 0
    else if query(selectors[0]).Some? then 0
    else 1 + FirstFound(query, selectors[1..])
  }

  /** The element of the first selector, in list order, that matches anything; `None` only when
      no selector matches. */
  function FirstMatch(query: string -> Option<Element>, selectors: seq<string>): (r: Option<Element>)
    ensures r.None? <==> forall j :: 0 <= j < |selectors| ==> query(selectors[j]).None?
    ensures r.Some? ==> exists k :: 0 <= k < |selectors| && query(selectors[k]) == r
                                    && forall j :: 0 <= j < k ==> query(selectors[j]).None?
  {
    var k := FirstFound(query, selectors);
    if k < |selectors| then query(selectors[k]) else None
  }

  /** The `for (const selector of ...)` loop that stops at the first selector with a match
      (content.js:64-70 and 126-135): after it, the variable holds the first match, or the last
      selector's `null` when nothing matched. */
  method SelectFirst(query: string -> Option<Element>, selectors: seq<string>) returns (found: Option<Element>)
    ensures found == FirstMatch(query, selectors)
    ensures found.None? <==> forall j :: 0 <= j < |selectors| ==> query(selectors[j]).None?
  {
    found := None;
    var i := 0;
    while i < |selectors|
      invariant 0 <= i <= |selectors|
      invariant forall j :: 0 <= j < i ==> query(selectors[j]).None?
      invariant found.None?
    {
      found := query(selectors[i]);
      if found.Some? {
        assert FirstFound(query, selectors) == i by { FirstFoundAt(query, selectors, i); }
        return;
      }
      i := i + 1;
    }
    assert FirstFound(query, selectors) == |selectors| by { FirstFoundAt(query, selectors, i); }
  }

  /** `FirstFound` is the first position that matches. */
  lemma {:induction false} FirstFoundAt(query: string -> Option<Element>, selectors: seq<string>, i: nat)
    requires i <= |selectors|
    requires forall j :: 0 <= j < i ==> query(selectors[j]).None?
    requires i < |selectors| ==> query(selectors[i]).Some?
    ensures FirstFound(query, selectors) == i
  {
    if i > 0 {
      assert forall j :: 0 <= j < i - 1 ==> selectors[1..][j] == selectors[j + 1];
      FirstFoundAt(query, selectors[1..], i - 1);
    }
  }

  /** `getTextarea` (content.js:63-73): the compose input of the first input selector that
      matches, or `null`. */
  method GetTextarea(dom: Dom) returns (input: Option<Element>)
    ensures input.None? <==> forall j :: 0 <= j < |TextInputs| ==> dom.query(TextInputs[j]).None?
    ensures input.Some? ==> exists k :: 0 <= k < |TextInputs| && dom.query(TextInputs[k]) == input
                                        && forall j :: 0 <= j < k ==> dom.query(TextInputs[j]).None?
  {
    input := SelectFirst(dom.query, TextInputs);
  }

  // ---------------------------------------------------------------------------------------------
  // The message container

  /** The container chain of `getLastMessage` (content.js:108-155): the primary selector, then the
      alternatives in order, then the parent of the first message-like element. */
  function ContainerOf(dom: Dom): (c: Option<Element>)
    ensures dom.query(MessageContainer).Some? ==> c == dom.query(MessageContainer)
    ensures dom.query(MessageContainer).None? && FirstMatch(dom.query, ContainerAlternatives).Some?
            ==> c == FirstMatch(dom.query, ContainerAlternatives)
    ensures (dom.query(MessageContainer).None? && FirstMatch(dom.query, ContainerAlternatives).None?
             && dom.queryAll(MessageLike) != [])
            ==> c == dom.parent(dom.queryAll(MessageLike)[0])
    ensures c.None? <==>
            && dom.query(MessageContainer).None?
            && (forall j :: 0 <= j < |ContainerAlternatives| ==> dom.query(ContainerAlternatives[j]).None?)
            && (dom.queryAll(MessageLike) == [] || dom.parent(dom.queryAll(MessageLike)[0]).None?)
  {
    var primary := dom.query(MessageContainer);
    if primary.Some? then primary
    else
      var alternative := FirstMatch(dom.query, ContainerAlternatives);
      if alternative.Some? then alternative
      else
        var anyMessage := dom.queryAll(MessageLike);
        if |anyMessage| > 0 then dom.parent(anyMessage[0]) else None
  }

  /** Lines 108-155 as written, with the alternatives loop of lines 126-135. */
  method FindContainer(dom: Dom) returns (container: Option<Element>)
    ensures container == ContainerOf(dom)
  {
    container := dom.query(MessageContainer);
    if container.None? {
      container := SelectFirst(dom.query, ContainerAlternatives);
      if container.None? {
        var anyMessageElements := dom.queryAll(MessageLike);
        if |anyMessageElements| > 0 {
          container := dom.parent(anyMessageElements[0]);
        }
      }
    }
  }

  // ---------------------------------------------------------------------------------------------
  // The content element and its text

  /** `content && content.textContent?.trim()`. */
  predicate HasText(content: Option<Element>) {
    content.Some? && Trim(content.value.textContent) != []
  }

  /** The break test of the content loop holds exactly for a match whose text has a character
      that is not whitespace. */
  lemma HasTextIffNonBlank(content: Option<Element>)
    ensures HasText(content) <==>
            content.Some? && exists i :: 0 <= i < |content.value.textContent| && !IsTrimmable(content.value.textContent[i])
  {
    if content.Some? {
      TrimBlankIff(content.value.textContent);
    }
  }

  /** The position of the first selector whose match below `bubble` passes `hasText`, or
      `|selectors|` if none does. The test is a parameter so that the loop's proof does not depend
      on how text is judged. */
  function FirstWithText(dom: Dom, bubble: Element, selectors: seq<string>, hasText: Option<Element> -> bool): (k: nat)
    ensures k <= |selectors|
    ensures forall j :: 0 <= j < k ==> !hasText(dom.find(bubble, selectors[j]))
    ensures k < |selectors| ==> hasText(dom.find(bubble, selectors[k]))
  {
    if selectors == [] then 0
    else if hasText(dom.find(bubble, selectors[0])) then 0
    else 1 + FirstWithText(dom, bubble, selectors[1..], hasText)
  }

  /** What the alternatives loop of lines 184-192 leaves in `content`: the match of the first
      selector whose match has text, or else the match of the last selector tried. */
  function TextFallback(dom: Dom, bubble: Element, selectors: seq<string>, hasText: Option<Element> -> bool): (content: Option<Element>)
    requires selectors != []
    ensures hasText(content) ==>
            exists k :: 0 <= k < |selectors| && content == dom.find(bubble, selectors[k])
                        && forall j :: 0 <= j < k ==> !hasText(dom.find(bubble, selectors[j]))
    ensures !hasText(content) ==>
            (forall j :: 0 <= j < |selectors| ==> !hasText(dom.find(bubble, selectors[j])))
            && content == dom.find(bubble, selectors[|selectors| - 1])
  {
    var k := FirstWithText(dom, bubble, selectors, hasText);
    if k < |selectors| then dom.find(bubble, selectors[k]) else dom.find(bubble, selectors[|selectors| - 1])
  }

  /** The content element of lines 166-193: the primary content match if there is one; otherwise
      the first alternative whose match has non-blank text; otherwise whatever the LAST alternative
      ("span") matched, which may be nothing or an element with blank text. */
  function ContentOf(dom: Dom, bubble: Element): (content: Option<Element>)
    ensures dom.find(bubble, MessageContent).Some? ==> content == dom.find(bubble, MessageContent)
    ensures dom.find(bubble, MessageContent).None? && HasText(content) ==>
            exists k :: 0 <= k < |ContentAlternatives| && content == dom.find(bubble, ContentAlternatives[k])
                        && forall j :: 0 <= j < k ==> !HasText(dom.find(bubble, ContentAlternatives[j]))
    ensures dom.find(bubble, MessageContent).None? && !HasText(content) ==>
            (forall j :: 0 <= j < |ContentAlternatives| ==> !HasText(dom.find(bubble, ContentAlternatives[j])))
            && content == dom.find(bubble, "span")
  {
    var primary := dom.find(bubble, MessageContent);
    if primary.Some? then primary else TextFallback(dom, bubble, ContentAlternatives, HasText)
  }

  /** `FirstWithText` is the first position whose match has text. */
  lemma {:induction false} FirstWithTextAt(dom: Dom, bubble: Element, selectors: seq<string>, hasText: Option<Element> -> bool, i: nat)
    requires i <= |selectors|
    requires forall j :: 0 <= j < i ==> !hasText(dom.find(bubble, selectors[j]))
    requires i < |selectors| ==> hasText(dom.find(bubble, selectors[i]))
    ensures FirstWithText(dom, bubble, selectors, hasText) == i
  {
    if i > 0 {
      assert forall j :: 0 <= j < i - 1 ==> selectors[1..][j] == selectors[j + 1];
      FirstWithTextAt(dom, bubble, selectors[1..], hasText, i - 1);
    }
  }

  /** The alternatives loop of lines 184-192: it breaks at the first match that has text and
      otherwise ends holding the last selector's match. */
  method SelectWithText(dom: Dom, bubble: Element, selectors: seq<string>, hasText: Option<Element> -> bool)
    returns (content: Option<Element>)
    requires selectors != []
    ensures content == TextFallback(dom, bubble, selectors, hasText)
  {
    content := None;
    var i := 0;
    while i < |selectors|
      invariant 0 <= i <= |selectors|
      invariant forall j :: 0 <= j < i ==> !hasText(dom.find(bubble, selectors[j]))
      invariant i > 0 ==> content == dom.find(bubble, selectors[i - 1])
    {
      content := dom.find(bubble, selectors[i]);
      if hasText(content) {
        FirstWithTextAt(dom, bubble, selectors, hasText, i);
        return;
      }
      i := i + 1;
    }
    FirstWithTextAt(dom, bubble, selectors, hasText, i);
  }

  /** Lines 166-193 as written: the primary content selector, then the alternatives loop. */
  method SelectContent(dom: Dom, bubble: Element) returns (content: Option<Element>)
    ensures content == ContentOf(dom, bubble)
  {
    content := dom.find(bubble, MessageContent);
    if content.None? {
      content := SelectWithText(dom, bubble, ContentAlternatives, HasText);
    }
  }

  /** Line 195: `content ? (content.textContent || content.innerText || '') : lastMessage.textContent || ''`. */
  function ExtractedText(content: Option<Element>, bubble: Element): (text: string)
    ensures content.None? ==> text == bubble.textContent
    ensures content.Some? && content.value.textContent != "" ==> text == content.value.textContent
    ensures content.Some? && content.value.textContent == "" ==> text == content.value.innerText
    ensures content.Some? && text == "" ==> content.value.textContent == "" && content.value.innerText == ""
  {
    match content
    case Some(c) => if c.textContent != "" then c.textContent else c.innerText
    case None => bubble.textContent
  }

  // ---------------------------------------------------------------------------------------------
  // getLastMessage

  /** What `getLastMessage` (content.js:104-208) returns for a page. */
  function LastMessageOf(dom: Dom): (r: Read)
    ensures ContainerOf(dom).None? ==> r == Ok(None)
    ensures r.Thrown? <==> ContainerOf(dom).Some? && dom.findAll(ContainerOf(dom).value, MessageBubble) == []
    ensures r.Thrown? ==> r.message == NoBubbleError
    ensures r.Ok? && r.value.Some? ==> r.value.value.text != [] && Trim(r.value.value.text) == r.value.value.text
    ensures r.Ok? && r.value.Some? ==>
            var bubbles := dom.findAll(ContainerOf(dom).value, MessageBubble);
            r.value.value.isFromCurrentUser <==> dom.find(bubbles[|bubbles| - 1], FromMe).Some?
    ensures r.Ok? && r.value.Some? ==>
            var bubbles := dom.findAll(ContainerOf(dom).value, MessageBubble);
            && bubbles != []
            && var last := bubbles[|bubbles| - 1];
               r.value.value.text == Trim(ExtractedText(ContentOf(dom, last), last))
  {
    match ContainerOf(dom)
    case None => Ok(None)
    case Some(container) =>
      var bubbles := dom.findAll(container, MessageBubble);
      if bubbles == [] then Thrown(NoBubbleError)
      else
        var last := bubbles[|bubbles| - 1];
        var text := ExtractedText(ContentOf(dom, last), last);
        if Trim(text) == [] then Ok(None)
        else
          TrimIdempotent(text);
          Ok(Some(Message(Trim(text), dom.find(last, FromMe).Some?)))
  }

  /** The message is `null` exactly when no container is found or the last bubble's extracted
      text is blank. */
  lemma NullIffNoContainerOrBlank(dom: Dom)
    requires LastMessageOf(dom).Ok?
    ensures LastMessageOf(dom).value.None? <==>
            ContainerOf(dom).None? ||
            var bubbles := dom.findAll(ContainerOf(dom).value, MessageBubble);
            var last := bubbles[|bubbles| - 1];
            forall i :: 0 <= i < |ExtractedText(ContentOf(dom, last), last)| ==> IsTrimmable(ExtractedText(ContentOf(dom, last), last)[i])
  {
    if ContainerOf(dom).Some? {
      var bubbles := dom.findAll(ContainerOf(dom).value, MessageBubble);
      var last := bubbles[|bubbles| - 1];
      TrimBlankIff(ExtractedText(ContentOf(dom, last), last));
    }
  }

  /** `getLastMessage` as written: container, last bubble (the TypeError when there is none),
      content, text and authorship. */
  method GetLastMessage(dom: Dom) returns (r: Read)
    ensures r == LastMessageOf(dom)
  {
    var container := FindContainer(dom);
    if container.None? {
      return Ok(None);
    }
    var messages := dom.findAll(container.value, MessageBubble);
    if messages == [] {
      // `messages[messages.length - 1]` is undefined and reading `.innerHTML` from it throws
      return Thrown(NoBubbleError);
    }
    var lastMessage := messages[|messages| - 1];
    var content := SelectContent(dom, lastMessage);
    var text := ExtractedText(content, lastMessage);
    if Trim(text) == [] {
      return Ok(None);
    }
    r := Ok(Some(Message(Trim(text), dom.find(lastMessage, FromMe).Some?)));
  }
}

=== FILE: jstext.dfy ===
/** The few JavaScript string operations the content script relies on. Strings are sequences of
    Unicode scalar values. */
module JsText {

  /** The code points `String.prototype.trim` strips: ECMAScript's WhiteSpace (tab, vertical tab,
      form feed, space, no-break space, zero-width no-break space and the Zs category) and
      LineTerminator (line feed, carriage return, line and paragraph separators). */
  predicate IsTrimmable(c: char) {
    var n := c as int;
    n == 0x09 || n == 0x0A || n == 0x0B || n == 0x0C || n == 0x0D || n == 0x20 || n == 0xA0
    || n == 0x1680 || (0x2000 <= n <= 0x200A) || n == 0x2028 || n == 0x2029 || n == 0x202F
    || n == 0x205F || n == 0x3000 || n == 0xFEFF
  }

  /** Drops leading trimmable characters: the result is the longest suffix of `s` that does not
      start with one. */
  function TrimStart(s: string): (r: string)
    ensures |r| <= |s| && r == s[|s| - |r|..]
    ensures r == [] || !IsTrimmable(r[0])
    ensures forall i :: 0 <= i < |s| - |r| ==> IsTrimmable(s[i])
  {
    if s != [] && IsTrimmable(s[0]) then TrimStart(s[1..]) else s
  }

  /** Drops trailing trimmable characters: the result is the longest prefix of `s` that does not
      end with one. */
  function TrimEnd(s: string): (r: string)
    ensures |r| <= |s| && r == s[..|r|]
    ensures r == [] || !IsTrimmable(r[|r| - 1])
    ensures forall i :: |r| <= i < |s| ==> IsTrimmable(s[i])
  {
    if s != [] && IsTrimmable(s[|s| - 1]) then TrimEnd(s[..|s| - 1]) else s
  }

  /** `s.trim()`: what is left has no trimmable character at either end. */
  function Trim(s: string): (r: string)
    ensures |r| <= |s|
    ensures r != [] ==> !IsTrimmable(r[0]) && !IsTrimmable(r[|r| - 1])
  {
    TrimEnd(TrimStart(s))
  }

  /** A text trims to nothing exactly when every character of it is trimmable. */
  lemma TrimBlankIff(s: string)
    ensures Trim(s) == [] <==> forall i :: 0 <= i < |s| ==> IsTrimmable(s[i])
  {
    var t := TrimStart(s);
    var d := |s| - |t|;
    if TrimEnd(t) != [] && t != [] {
      assert t[0] == s[d];
    }
  }

  /** `r` is `s` with the `a` characters before it and the ones after it removed, and every
      removed character is trimmable. */
  ghost predicate StrippedAt(s: string, a: nat, r: string) {
    && a + |r| <= |s|
    && r == s[a..a + |r|]
    && (forall i :: 0 <= i < a ==> IsTrimmable(s[i]))
    && (forall i :: a + |r| <= i < |s| ==> IsTrimmable(s[i]))
  }

  /** `Trim` removes leading and trailing whitespace and nothing else: its result is a slice of
      the input with only trimmable characters cut off on either side. With the ends that `Trim`
      guarantees, the slice is the longest such one. */
  lemma TrimOnlyStripsEnds(s: string)
    ensures exists a :: StrippedAt(s, a, Trim(s))
  {
    var t := TrimStart(s);
    var a := |s| - |t|;
    var r := TrimEnd(t);
    SliceOfSuffix(s, t, r, a);
    TrailingTrimmable(s, t, r, a);
    assert StrippedAt(s, a, r);
    assert Trim(s) == r;
  }

  /** A prefix of the suffix `s[a..]` is a slice of `s` starting at `a`. */
  lemma SliceOfSuffix(s: string, t: string, r: string, a: nat)
    requires a <= |s| && t == s[a..] && |r| <= |t| && r == t[..|r|]
    ensures r == s[a..a + |r|]
  {
  }

  /** What `TrimEnd` drops from the suffix `t` of `s` is trimmable in `s`. */
  lemma TrailingTrimmable(s: string, t: string, r: string, a: nat)
    requires a <= |s| && t == s[a..] && |r| <= |t|
    requires forall i :: |r| <= i < |t| ==> IsTrimmable(t[i])
    ensures forall i :: a + |r| <= i < |s| ==> IsTrimmable(s[i])
  {
    forall i | a + |r| <= i < |s|
      ensures IsTrimmable(s[i])
    {
      assert s[i] == t[i - a];
    }
  }

  /** Trimming twice is trimming once: a trimmed text is a fixed point of `Trim`. */
  lemma TrimIdempotent(s: string)
    ensures Trim(Trim(s)) == Trim(s)
  {
    var r := Trim(s);
    if r != [] {
      assert TrimStart(r) == r;
      assert TrimEnd(r) == r;
    }
  }

  /** `s.startsWith(prefix)`. */
  predicate StartsWith(s: string, prefix: string) {
    |prefix| <= |s| && s[..|prefix|] == prefix
  }

  /** The decimal digit for `d`. */
  function Digit(d: nat): (c: char)
    requires d < 10
    ensures '0' <= c <= '9' && c as int - '0' as int == d
  {
    "0123456789"[d]
  }

  /** A number converted to a string in a template literal, as in `HTTP ${response.status}`. */
  function Decimal(n: nat): (r: string)
    ensures |r| >= 1
    ensures forall i :: 0 <= i < |r| ==> '0' <= r[i] <= '9'
    ensures r[0] == '0' ==> n == 0 && r == "0"
  {
    if n < 10 then [Digit(n)] else Decimal(n / 10) + [Digit(n % 10)]
  }

  /** The number a string of decimal digits denotes. */
  function DigitsValue(s: string): nat
    requires forall i :: 0 <= i < |s| ==> '0' <= s[i] <= '9'
  {
    if s == [] then 0 else 10 * DigitsValue(s[..|s| - 1]) + (s[|s| - 1] as int - '0' as int)
  }

  /** `Decimal` writes the number itself: reading its digits back gives `n`. */
  lemma {:induction false} DecimalValue(n: nat)
    ensures DigitsValue(Decimal(n)) == n
  {
    if n >= 10 {
      var front := Decimal(n / 10);
      assert (front + [Digit(n % 10)])[..|front|] == front;
      DecimalValue(n / 10);
    }
  }
}

=== FILE: monitor.dfy ===
/** The message-change monitor of the content script (content.js:25-28, 551-585, 611-620 and
    644-658): a two-second interval that reads the last message and asks for memories when it
    changed, and a one-second URL check that restarts it after in-app navigation.

    Timers are explicit: `setInterval` hands out the next handle, the browser runs the intervals
    in `intervals`, and a tick names the interval it belongs to. Each tick runs to completion
    before anything else happens. */
module Monitor {
  import opened Wrappers
  import opened Notices
  import opened DomReader
  import opened Presenter
  import opened Retrieval
  import opened Auth

  /** The script's module-level variables together with the intervals the browser runs for the
      monitor. */
  datatype State = State(
    lastKnown: Option<string>,     // lastKnownMessage; null and undefined are both None
    timer: Option<nat>,            // autoRetrievalTimer
    intervals: set<nat>,           // monitor intervals not yet cleared
    nextHandle: nat,               // what the next setInterval returns
    currentUrl: string,
    lastRetrievalTime: int)        // lastMemoryRetrievalTime

  /** The timer variable names the one interval that runs, or none runs; handles are positive and
      come from a counter. */
  predicate Inv(s: State) {
    && 0 < s.nextHandle
    && (s.timer.None? ==> s.intervals == {})
    && (s.timer.Some? ==> 0 < s.timer.value < s.nextHandle && s.intervals == {s.timer.value})
  }

  /** Lines 26-28 and 645, before monitoring starts. */
  function Initial(href: string): (s: State)
    ensures Inv(s) && s.intervals == {} && s.lastKnown.None? && s.currentUrl == href
  {
    State(None, None, {}, 1, href, 0)
  }

  /** `currentMessage?.text`. */
  function TextOf(observed: Option<Message>): (t: Option<string>)
    ensures t.None? <==> observed.None?
    ensures observed.Some? ==> t == Some(observed.value.text)
  {
    if observed.Some? then Some(observed.value.text) else None
  }

  /** The test of line 566, `lastKnownMessage != currentMessage?.text &&
      !currentMessage?.isFromCurrentUser`, with null and undefined equal under `!=`. */
  function ShouldTrigger(known: Option<string>, observed: Option<Message>): (b: bool)
    ensures observed.None? ==> (b <==> known.Some?)
    ensures observed.Some? ==> (b <==> !observed.value.isFromCurrentUser && known != Some(observed.value.text))
  {
    known != TextOf(observed) && !(observed.Some? && observed.value.isFromCurrentUser)
  }

  /** `startAutoRetrieval` (content.js:552-576): any interval in the timer variable is cleared and a
      fresh one installed; the last known message is kept. */
  function StartState(s: State): (r: State)
    ensures r.timer == Some(s.nextHandle) && r.nextHandle == s.nextHandle + 1
    ensures s.nextHandle in r.intervals
    ensures Inv(s) ==> Inv(r) && r.intervals == {s.nextHandle}
    ensures r.lastKnown == s.lastKnown && r.currentUrl == s.currentUrl && r.lastRetrievalTime == s.lastRetrievalTime
  {
    var running := if s.timer.Some? then s.intervals - {s.timer.value} else s.intervals;
    s.(timer := Some(s.nextHandle), intervals := running + {s.nextHandle}, nextHandle := s.nextHandle + 1)
  }

  /** `stopAutoRetrieval` (content.js:578-585): the interval is cleared, the timer variable and the
      last known message become null. */
  function StopState(s: State): (r: State)
    ensures r.timer.None? && r.lastKnown.None?
    ensures s.timer.Some? ==> s.timer.value !in r.intervals
    ensures Inv(s) ==> Inv(r) && r.intervals == {}
    ensures r.nextHandle == s.nextHandle && r.currentUrl == s.currentUrl && r.lastRetrievalTime == s.lastRetrievalTime
  {
    var running := if s.timer.Some? then s.intervals - {s.timer.value} else s.intervals;
    s.(timer := None, intervals := running, lastKnown := None)
  }

  /** Whether an interval callback with this handle runs at all: a cleared interval never fires. */
  predicate Fires(s: State, handle: nat) {
    handle in s.intervals
  }

  /** Whether the tick calls `retrieveMemories`. */
  predicate TickRetrieves(s: State, handle: nat, read: Read) {
    Fires(s, handle) && read.Ok? && ShouldTrigger(s.lastKnown, read.value)
  }

  /** The interval callback (content.js:561-575) on the monitor state: only a tick that calls
      `retrieveMemories` changes anything, and it stores the observed text (None when there was no
      observation); a read that throws leaves the state alone. The second read made inside
      `retrieveMemories` sees the same page, so it cannot throw where the first did not. */
  function TickState(s: State, handle: nat, read: Read): (r: State)
    ensures r.(lastKnown := s.lastKnown) == s
    ensures r.lastKnown != s.lastKnown ==> TickRetrieves(s, handle, read)
    ensures TickRetrieves(s, handle, read) ==> r.lastKnown == TextOf(read.value)
    ensures Inv(s) ==> Inv(r)
  {
    if TickRetrieves(s, handle, read) then s.(lastKnown := TextOf(read.value)) else s
  }

  const AutoRetrievalError := "Auto-retrieval error: "

  /** The notices a tick shows: the retrieval's own when it retrieves, one error when reading the
      page throws, none otherwise. */
  function TickReport(s: State, handle: nat, read: Read, w: World): (ns: seq<Notice>)
    ensures !Fires(s, handle) ==> ns == []
    ensures Fires(s, handle) && read.Thrown? ==> ns == [Notice(Error, AutoRetrievalError + read.message)]
    ensures TickRetrieves(s, handle, read) ==> ns == Report(Attempt(read.value, w), ComposeArea(w.composeQuery))
    ensures Fires(s, handle) && read.Ok? && !TickRetrieves(s, handle, read) ==> ns == []
  {
    if !Fires(s, handle) then []
    else match read
      case Thrown(message) => [Notice(Error, AutoRetrievalError + message)]
      case Ok(observed) =>
        if ShouldTrigger(s.lastKnown, observed) then Report(Attempt(observed, w), ComposeArea(w.composeQuery)) else []
  }

  /** The request a tick sends to the memory API, if any. */
  function TickRequest(s: State, handle: nat, read: Read, w: World): Option<Request> {
    if TickRetrieves(s, handle, read) then Sent(Attempt(read.value, w)) else None
  }

  /** The URL check (content.js:646-658): on a new address, record it, zero the retrieval time,
      forget the last known message and restart monitoring; on the same address, nothing. */
  function UrlCheckState(s: State, href: string): (r: State)
    ensures href == s.currentUrl ==> r == s
    ensures href != s.currentUrl ==>
            && r.currentUrl == href && r.lastRetrievalTime == 0 && r.lastKnown.None?
            && r.timer == Some(s.nextHandle) && r.nextHandle == s.nextHandle + 1
    ensures href != s.currentUrl && Inv(s) ==> Inv(r) && r.intervals == {s.nextHandle}
  {
    if href == s.currentUrl then s
    else StartState(StopState(s.(currentUrl := href, lastRetrievalTime := 0, lastKnown := None)))
  }

  // ---------------------------------------------------------------------------------------------
  // Properties of the monitor

  /** The very first incoming message triggers, and once it is known the same page never triggers
      again, whatever became of the retrieval (its outcome does not enter the state). A second
      tick on the same page is silent. */
  lemma {:induction false} SamePageIsQuietAfterTick(s: State, handle: nat, read: Read, w: World)
    requires Fires(s, handle) && read.Ok?
    ensures var s1 := TickState(s, handle, read);
            && TickState(s1, handle, read) == s1
            && TickReport(s1, handle, read, w) == []
            && TickRequest(s1, handle, read, w).None?
  {
    var s1 := TickState(s, handle, read);
    assert Fires(s1, handle);
    assert !ShouldTrigger(s1.lastKnown, read.value);
  }

  /** A read that throws changes nothing, calls no retrieval, and shows exactly one error. */
  lemma ThrowingReadKeepsState(s: State, handle: nat, message: string, w: World)
    requires Fires(s, handle)
    ensures TickState(s, handle, Thrown(message)) == s
    ensures TickRequest(s, handle, Thrown(message), w).None?
    ensures TickReport(s, handle, Thrown(message), w) == [Notice(Error, AutoRetrievalError + message)]
  {
  }

  /** No request ever goes out for the user's own message, nor for the text the monitor already
      knows; a request always carries the observed text. */
  lemma NoRequestForKnownOrOwnMessage(s: State, handle: nat, read: Read, w: World)
    requires TickRequest(s, handle, read, w).Some?
    ensures read.Ok? && read.value.Some?
    ensures !read.value.value.isFromCurrentUser && s.lastKnown != Some(read.value.value.text)
    ensures TickRequest(s, handle, read, w).value.url
            == ApiBaseUrl + RetrievePath(read.value.value.text)
  {
    RequestOnlyForMessage(read.value, w);
  }

  /** With nothing observed, a tick retrieves exactly when a message was known: from null it stays
      quiet, from a known text it calls `retrieveMemories`, which finds no message, and the known
      message becomes null. */
  lemma NoObservation(s: State, handle: nat, w: World)
    requires Fires(s, handle)
    ensures TickRetrieves(s, handle, Ok(None)) <==> s.lastKnown.Some?
    ensures TickState(s, handle, Ok(None)).lastKnown.None?
    ensures s.lastKnown.Some? ==> TickReport(s, handle, Ok(None), w) == [Notice(Warning, NoMessageWarning)]
    ensures TickRequest(s, handle, Ok(None), w).None?
  {
  }

  /** After `stopAutoRetrieval` no interval runs, so no tick does anything. */
  lemma StoppedMonitorIsSilent(s: State, handle: nat, read: Read, w: World)
    requires Inv(s)
    ensures var s1 := StopState(s);
            TickState(s1, handle, read) == s1 && TickReport(s1, handle, read, w) == []
  {
  }

  /** Stopping and starting forgets the last known message: the message seen before the stop
      triggers again on the new interval, while the old interval stays silent. */
  lemma RestartRetriggers(s: State, m: Message, w: World)
    requires Inv(s) && !m.isFromCurrentUser
    ensures var s2 := StartState(StopState(s));
            && TickRetrieves(s2, s2.timer.value, Ok(Some(m)))
            && TickState(s2, s2.timer.value, Ok(Some(m))).lastKnown == Some(m.text)
            && (s.timer.Some? ==> TickState(s2, s.timer.value, Ok(Some(m))) == s2)
  {
  }

  /** Two navigations in a row: the state holds the second address, no message is known, and a
      single interval runs. */
  lemma TwoNavigations(s: State, a: string, b: string)
    requires Inv(s) && a != s.currentUrl && b != a
    ensures var r := UrlCheckState(UrlCheckState(s, a), b);
            && r.currentUrl == b && r.lastKnown.None? && r.lastRetrievalTime == 0
            && r.timer == Some(s.nextHandle + 1) && r.intervals == {s.nextHandle + 1}
  {
  }

  /** Incoming "Hello", then "Hello" again, then "Hello there": only the first and third reads
      call `retrieveMemories`. */
  lemma HelloScenario(s: State, handle: nat)
    requires Fires(s, handle) && s.lastKnown.None?
    ensures var r1 := Ok(Some(Message("Hello", false)));
            var r3 := Ok(Some(Message("Hello there", false)));
            var s1 := TickState(s, handle, r1);
            var s2 := TickState(s1, handle, r1);
            && TickRetrieves(s, handle, r1)
            && !TickRetrieves(s1, handle, r1)
            && TickRetrieves(s2, handle, r3)
  {
  }

  /** Everything that happens to the monitor, one atomic event at a time. */
  datatype Event =
    | StartCall
    | StopCall
    | IntervalTick(handle: nat, read: Read)
    | UrlCheck(href: string)

  function Step(s: State, e: Event): State {
    match e
    case StartCall => StartState(s)
    case StopCall => StopState(s)
    case IntervalTick(handle, read) => TickState(s, handle, read)
    case UrlCheck(href) => UrlCheckState(s, href)
  }

  function Run(s: State, events: seq<Event>): State
    decreases |events|
  {
    if events == [] then s else Run(Step(s, events[0]), events[1..])
  }

  /** Whatever happens, at most one monitor interval runs, and it is the one the timer variable
      holds. */
  lemma {:induction false} AtMostOneInterval(s: State, events: seq<Event>)
    requires Inv(s)
    ensures Inv(Run(s, events)) && |Run(s, events).intervals| <= 1
    decreases |events|
  {
    if events != [] {
      AtMostOneInterval(Step(s, events[0]), events[1..]);
    }
  }

  /** Lines 25-28, 551-585 and 644-658: the module-level state and the operations that change it. */
  class MessageMonitor {
    var lastKnownMessage: Option<string>
    var autoRetrievalTimer: Option<nat>
    /** The monitor intervals the browser still runs. */
    var intervals: set<nat>
    /** The handle the browser's next `setInterval` returns. */
    var nextHandle: nat
    var currentUrl: string
    var lastMemoryRetrievalTime: int

    function Snapshot(): State
      reads this
    {
      State(lastKnownMessage, autoRetrievalTimer, intervals, nextHandle, currentUrl, lastMemoryRetrievalTime)
    }

    ghost predicate Valid()
      reads this
    {
      Inv(Snapshot())
    }

    /** Script start-up (content.js:26-28, 611-620, 645): fresh state, then monitoring starts. */
    constructor (href: string)
      ensures Valid() && Snapshot() == StartState(Initial(href))
    {
      lastMemoryRetrievalTime := 0;
      autoRetrievalTimer := None;
      lastKnownMessage := None;
      intervals := {};
      nextHandle := 1;
      currentUrl := href;
      new;
      StartAutoRetrieval();
    }

    method StartAutoRetrieval()
      requires Valid()
      modifies this
      ensures Valid() && Snapshot() == StartState(old(Snapshot()))
    {
      if autoRetrievalTimer.Some? {
        intervals := intervals - {autoRetrievalTimer.value};    // clearInterval
      }
      autoRetrievalTimer := Some(nextHandle);                   // setInterval
      intervals := intervals + {nextHandle};
      nextHandle := nextHandle + 1;
    }

    method StopAutoRetrieval()
      requires Valid()
      modifies this
      ensures Valid() && Snapshot() == StopState(old(Snapshot()))
    {
      if autoRetrievalTimer.Some? {
        intervals := intervals - {autoRetrievalTimer.value};    // clearInterval
        autoRetrievalTimer := None;
      }
      lastKnownMessage := None;
    }

    /** One run of the interval callback with the given handle, on the page `dom`, with `world`
        answering the retrieval and `page` receiving the suggestion. */
    method Tick(handle: nat, dom: Dom, world: World, page: Page) returns (notices: seq<Notice>)
      requires Valid() && page.Valid()
      modifies this, page
      ensures Valid() && page.Valid() && page.nextSerial >= old(page.nextSerial)
      ensures Snapshot() == TickState(old(Snapshot()), handle, LastMessageOf(dom))
      ensures notices == TickReport(old(Snapshot()), handle, LastMessageOf(dom), world)
      ensures !TickRetrieves(old(Snapshot()), handle, LastMessageOf(dom)) ==> unchanged(page)
      ensures TickRetrieves(old(Snapshot()), handle, LastMessageOf(dom)) ==>
              page.suggestions == BoxesAfter(Attempt(LastMessageOf(dom).value, world), ComposeArea(world.composeQuery),
                                             old(page.suggestions), old(page.nextSerial))
    {
      if handle !in intervals {
        return [];
      }
      var currentMessage := GetLastMessage(dom);
      match currentMessage
      case Thrown(message) =>
        notices := [Notice(Error, AutoRetrievalError + message)];
      case Ok(observed) =>
        if ShouldTrigger(lastKnownMessage, observed) {
          var retrieval := RetrieveMemories(dom, world, page);
          match retrieval
          case Thrown(message) =>
            notices := [Notice(Error, AutoRetrievalError + message)];
          case Ok(shown) =>
            notices := shown;
            lastKnownMessage := TextOf(observed);
        } else {
          notices := [];
        }
    }

    method CheckUrl(href: string)
      requires Valid()
      modifies this
      ensures Valid() && Snapshot() == UrlCheckState(old(Snapshot()), href)
    {
      if href != currentUrl {
        currentUrl := href;
        lastMemoryRetrievalTime := 0;
        lastKnownMessage := None;
        StopAutoRetrieval();
        StartAutoRetrieval();
      }
    }
  }
}

=== FILE: notices.dfy ===
/** The transient banners of `showNotification` (content.js:516-549): a severity and a text.
    Colours, the "[Pensieve] " prefix and the three-second removal are presentation only. */
module Notices {

  datatype Level = Info | Success | Warning | Error

  datatype Notice = Notice(level: Level, text: string)
}

=== FILE: presenter.dfy ===
/** The suggestion presenter (content.js:251-418): the single "Pensieve Suggestion" box placed
    before the compose area, its preview text, and the buttons that take it away. */
module Presenter {
  import opened Wrappers
  import opened Notices
  import opened DomReader

  /** The parsed body of a retrieval response; `sources` is the length of its `sources` array, or
      `None` when the field is missing (reading `.length` from it then throws). */
  datatype Memories = Memories(answer: string, sources: Option<nat>)

  /** One `#pensieve-suggestion` element: `serial` tells apart the boxes created over time, which
      all carry the same DOM id. */
  datatype Suggestion = Suggestion(serial: nat, preview: string, answer: string, sourceCount: nat, anchor: Element)

  const PreviewLimit := 200

  const SuggestionPrefix := "Based on our conversation history: "

  /** The fallback chain for the compose area (content.js:269-271). */
  const ComposeSelectors: seq<string> := [
    "[data-tid=\"message-compose-box\"]",
    ".ck-editor",
    "[contenteditable=\"true\"]"]

  const NoComposeWarning := "Could not create suggested reply"

  const MissingSourcesError := "Cannot read properties of undefined (reading 'length')"

  /** `injectMemories` (content.js:251-259): the text the box offers. */
  function SuggestionText(answer: string): (t: string)
    ensures |t| == |SuggestionPrefix| + |answer| && t[..|SuggestionPrefix|] == SuggestionPrefix && t[|SuggestionPrefix|..] == answer
  {
    SuggestionPrefix + answer
  }

  /** Line 367: texts longer than 200 characters are cut to their first 200 and marked with '...';
      shorter ones are shown whole. */
  function Preview(text: string): (p: string)
    ensures |p| <= PreviewLimit + 3
    ensures |text| <= PreviewLimit ==> p == text
    ensures |text| > PreviewLimit ==> |p| == PreviewLimit + 3 && p[..PreviewLimit] == text[..PreviewLimit]
                                      && p[PreviewLimit..] == "..."
  {
    if |text| > PreviewLimit then text[..PreviewLimit] + "..." else text
  }

  /** Two long texts that agree on their first 200 characters get the same preview. */
  lemma PreviewKeepsOnlyPrefix(a: string, b: string)
    requires |a| > PreviewLimit && |b| > PreviewLimit && a[..PreviewLimit] == b[..PreviewLimit]
    ensures Preview(a) == Preview(b)
  {
  }

  /** The compose area the box is anchored to: the first selector of the chain that matches. */
  function ComposeArea(query: string -> Option<Element>): (area: Option<Element>)
    ensures area.None? <==> forall j :: 0 <= j < |ComposeSelectors| ==> query(ComposeSelectors[j]).None?
    ensures area.Some? ==> exists k :: 0 <= k < |ComposeSelectors| && query(ComposeSelectors[k]) == area
                                       && forall j :: 0 <= j < k ==> query(ComposeSelectors[j]).None?
  {
    FirstMatch(query, ComposeSelectors)
  }

  /** The suggestion boxes on the page after `createSuggestedReply`: a new box exactly when a
      compose area was found and the memories carry their sources, otherwise none at all (the old
      one was removed first in every case). */
  function Placed(serial: nat, text: string, memories: Memories, area: Option<Element>): (boxes: seq<Suggestion>)
    ensures |boxes| <= 1
    ensures boxes == [] <==> area.None? || memories.sources.None?
    ensures boxes != [] ==> boxes[0].serial == serial && boxes[0].anchor == area.value
                            && boxes[0].preview == Preview(text) && boxes[0].answer == memories.answer
                            && boxes[0].sourceCount == memories.sources.value
  {
    if area.Some? && memories.sources.Some?
    then [Suggestion(serial, Preview(text), memories.answer, memories.sources.value, area.value)]
    else []
  }

  /** The notices `createSuggestedReply` raises itself, and the error it throws. */
  function PlacementNotices(memories: Memories, area: Option<Element>): (ns: seq<Notice>)
    ensures area.None? ==> ns == [Notice(Warning, NoComposeWarning)]
    ensures area.Some? ==> ns == []
  {
    if area.None? then [Notice(Warning, NoComposeWarning)] else []
  }

  function PlacementError(memories: Memories, area: Option<Element>): (e: Option<string>)
    ensures e.Some? <==> area.Some? && memories.sources.None?
    ensures e.Some? ==> e.value == MissingSourcesError
  {
    if area.Some? && memories.sources.None? then Some(MissingSourcesError) else None
  }

  /** The part of the page the presenter writes to. */
  class Page {
    /** The `#pensieve-suggestion` elements in the document, in document order. */
    var suggestions: seq<Suggestion>
    /** The serial the next box gets. */
    var nextSerial: nat

    /** At most one suggestion box is live, and every live one was made before `nextSerial`. */
    ghost predicate Valid()
      reads this
    {
      |suggestions| <= 1 && forall s :: s in suggestions ==> s.serial < nextSerial
    }

    constructor ()
      ensures Valid() && suggestions == [] && nextSerial == 0
    {
      suggestions := [];
      nextSerial := 0;
    }

    /** `createSuggestedReply` (content.js:261-418, without the markup): the existing box is
        removed, then a new one is inserted before the compose area. No compose area: a warning
        and no box. Memories without `sources`: the build throws before the insert, no box. */
    method CreateSuggestedReply(text: string, memories: Memories, query: string -> Option<Element>)
      returns (notices: seq<Notice>, thrown: Option<string>)
      requires Valid()
      modifies this
      ensures Valid()
      ensures suggestions == Placed(old(nextSerial), text, memories, ComposeArea(query))
      ensures nextSerial == if suggestions == [] then old(nextSerial) else old(nextSerial) + 1
      ensures notices == PlacementNotices(memories, ComposeArea(query))
      ensures thrown == PlacementError(memories, ComposeArea(query))
    {
      if suggestions != [] {
        // document.querySelector('#pensieve-suggestion').remove()
        suggestions := suggestions[1..];
      }
      var composeArea := ComposeArea(query);
      if composeArea.None? {
        return [Notice(Warning, NoComposeWarning)], None;
      }
      if memories.sources.None? {
        return [], Some(MissingSourcesError);
      }
      var box := Suggestion(nextSerial, Preview(text), memories.answer, memories.sources.value, composeArea.value);
      suggestions := suggestions + [box];
      nextSerial := nextSerial + 1;
      notices, thrown := [], None;
    }

    /** The close button and the auto-dismiss timeout: `suggestionContainer.remove()` takes that
        one box off the page, and does nothing if it is already gone. */
    method Dismiss(serial: nat)
      requires Valid()
      modifies this
      ensures Valid() && nextSerial == old(nextSerial)
      ensures forall s :: s in suggestions <==> s in old(suggestions) && s.serial != serial
    {
      if suggestions != [] && suggestions[0].serial == serial {
        suggestions := suggestions[1..];
      }
    }

    /** The "Use This Reply" button (content.js:390-397): the full answer, not the preview, goes
        into the compose input found by `getTextarea`, if any, and the box is removed. */
    method UseSuggestion(box: Suggestion, dom: Dom) returns (input: Option<Element>, reply: Option<string>, notices: seq<Notice>)
      requires Valid() && box in suggestions
      modifies this
      ensures Valid() && suggestions == [] && nextSerial == old(nextSerial)
      ensures input.None? <==> forall j :: 0 <= j < |TextInputs| ==> dom.query(TextInputs[j]).None?
      ensures input.Some? ==> exists k :: 0 <= k < |TextInputs| && dom.query(TextInputs[k]) == input
                                          && forall j :: 0 <= j < k ==> dom.query(TextInputs[j]).None?
      ensures input.Some? ==> reply == Some(box.answer) && notices == [Notice(Success, "Contextual reply added")]
      ensures input.None? ==> reply.None? && notices == []
    {
      input := GetTextarea(dom);
      if input.Some? {
        reply := Some(box.answer);
        notices := [Notice(Success, "Contextual reply added")];
      } else {
        reply := None;
        notices := [];
      }
      if suggestions != [] && suggestions[0].serial == box.serial {
        suggestions := suggestions[1..];
      }
    }
  }
}

=== FILE: retrieval.dfy ===
/** `retrieveMemories` (content.js:211-249): read the last message again, check the credentials,
    ask the memory API, and offer the answer as a suggestion. Everything it cannot see (the two
    credential reads, the response of `fetch` and `response.json()`, the page at the time the box
    is inserted) is a `World`. */
module Retrieval {
  import opened Wrappers
  import opened JsText
  import opened Notices
  import opened DomReader
  import opened Auth
  import opened Presenter

  /** `response.json()`: it rejects with a reason, or yields the memories. */
  datatype Body = Unparsable(reason: string) | Parsed(memories: Memories)

  /** `fetch`: it rejects (network error, with its message), or a response arrives. */
  datatype FetchOutcome = NetworkError(reason: string) | Responded(status: nat, body: Body)

  /** What one retrieval meets outside the script: the credentials read at line 228, those read
      again inside `makeRequest` (line 45), the fetch, and the page the box is placed on. */
  datatype World = World(
    firstAuth: StoredAuth,
    secondAuth: StoredAuth,
    fetch: FetchOutcome,
    composeQuery: string -> Option<Element>)

  /** How a retrieval ended. `Failed` is every error the `try` of lines 227-248 catches, with the
      request if one was sent. */
  datatype Outcome =
    | NoMessage
    | NotSignedIn
    | Failed(sent: Option<Request>, reason: string)
    | Answered(request: Request, memories: Memories)

  const NoMessageWarning := "No last message for memory retrieval"
  const RetrievingInfo := "Retrieving memories..."
  const SignInError := "Please sign in first"
  const RetrievedSuccess := "Retrieved answers"
  const QueryPrefix := "/api/memories/retrieve-answer/?q="
  const TopK := "&top_k=5"

  /** The relative URL of line 235; `URLSearchParams` escaping is not modelled. */
  function RetrievePath(query: string): (path: string)
    ensures !StartsWith(path, "http") && ResolveUrl(path) == ApiBaseUrl + path
    ensures |path| == |QueryPrefix| + |query| + |TopK|
    ensures path[..|QueryPrefix|] == QueryPrefix
    ensures path[|QueryPrefix|..|QueryPrefix| + |query|] == query
  {
    var path := QueryPrefix + query + TopK;
    assert path[0] == '/';
    path
  }

  /** `response.ok`: the status is in the 2xx class. */
  predicate IsOkStatus(status: nat): (ok: bool)
    ensures ok <==> status / 100 == 2
  {
    200 <= status <= 299
  }

  function Sent(o: Outcome): Option<Request> {
    match o
    case Failed(sent, _) => sent
    case Answered(request, _) => Some(request)
    case _ => None
  }

  /** Lines 214-243, from the second read of the last message up to the parsed answer. */
  function Attempt(msg: Option<Message>, w: World): (o: Outcome)
    ensures o.NoMessage? <==> msg.None? || msg.value.text == ""
    ensures o.NotSignedIn? <==> !o.NoMessage? && GetStoredAuth(w.firstAuth).NotAuthenticated?
    ensures o.Answered? <==>
            && !o.NoMessage?
            && GetStoredAuth(w.firstAuth).Authenticated?
            && GetStoredAuth(w.secondAuth).Authenticated?
            && w.fetch.Responded? && IsOkStatus(w.fetch.status) && w.fetch.body.Parsed?
    ensures o.Answered? ==> o.memories == w.fetch.body.memories
    ensures Sent(o).Some? ==>
            && msg.Some?
            && Sent(o).value.url == ApiBaseUrl + RetrievePath(msg.value.text)
            && GetStoredAuth(w.secondAuth).Authenticated?
            && Sent(o).value.authorization == "Bearer " + GetStoredAuth(w.secondAuth).token
    ensures !o.NoMessage? && !o.NotSignedIn? && GetStoredAuth(w.secondAuth).Authenticated? ==> Sent(o).Some?
    ensures o.Failed? && o.sent.None? ==> o.reason == "Not authenticated"
    ensures o.Failed? && o.sent.Some? && w.fetch.NetworkError? ==> o.reason == w.fetch.reason
    ensures o.Failed? && o.sent.Some? && w.fetch.Responded? && IsOkStatus(w.fetch.status) ==>
            w.fetch.body.Unparsable? && o.reason == w.fetch.body.reason
    ensures o.Failed? && o.sent.Some? && w.fetch.Responded? && !IsOkStatus(w.fetch.status) ==>
            o.reason == "HTTP " + Decimal(w.fetch.status)
  {
    match msg
    case None => NoMessage
    case Some(m) =>
      if m.text == "" then NoMessage
      else if GetStoredAuth(w.firstAuth).NotAuthenticated? then NotSignedIn
      else
        match MakeRequest(RetrievePath(m.text), w.secondAuth)
        case Thrown(reason) => Failed(None, reason)
        case Ok(request) =>
          match w.fetch
          case NetworkError(reason) => Failed(Some(request), reason)
          case Responded(status, body) =>
            if !IsOkStatus(status) then Failed(Some(request), "HTTP " + Decimal(status))
            else
              match body
              case Unparsable(reason) => Failed(Some(request), reason)
              case Parsed(memories) => Answered(request, memories)
  }

  /** The notices a retrieval shows, in order, given the compose area found when the box is
      placed. */
  function Report(o: Outcome, area: Option<Element>): (ns: seq<Notice>)
    ensures o.NoMessage? ==> ns == [Notice(Warning, NoMessageWarning)]
    ensures !o.NoMessage? ==> |ns| >= 2 && ns[0] == Notice(Info, RetrievingInfo)
    ensures o.NotSignedIn? || o.Failed? ==> ns[|ns| - 1].level == Error
    ensures (exists i :: 0 <= i < |ns| && ns[i].level == Success) <==> o.Answered?
    ensures (exists i :: 0 <= i < |ns| && ns[i].level == Error) <==>
            o.NotSignedIn? || o.Failed? || (o.Answered? && PlacementError(o.memories, area).Some?)
  {
    match o
    case NoMessage => [Notice(Warning, NoMessageWarning)]
    case NotSignedIn => [Notice(Info, RetrievingInfo), Notice(Error, SignInError)]
    case Failed(_, reason) => [Notice(Info, RetrievingInfo), Notice(Error, "Error: " + reason)]
    case Answered(_, memories) =>
      var thrown := PlacementError(memories, area);
      var ns := [Notice(Info, RetrievingInfo), Notice(Success, RetrievedSuccess)]
                + PlacementNotices(memories, area)
                + (if thrown.Some? then [Notice(Error, "Error: " + thrown.value)] else []);
      assert ns[1].level == Success;
      assert thrown.Some? ==> ns[|ns| - 1].level == Error;
      assert thrown.None? ==> forall i :: 0 <= i < |ns| ==> ns[i].level != Error;
      ns
  }

  /** The suggestion boxes on the page after a retrieval: only an answer touches them. */
  function BoxesAfter(o: Outcome, area: Option<Element>, boxes: seq<Suggestion>, serial: nat): seq<Suggestion> {
    if o.Answered? then Placed(serial, SuggestionText(o.memories.answer), o.memories, area) else boxes
  }

  /** `retrieveMemories` as written. Its own `getLastMessage()` (line 214) is outside the `try`,
      so a TypeError there rejects the whole call; every later failure is caught and shown. */
  method RetrieveMemories(dom: Dom, world: World, page: Page) returns (r: Result<seq<Notice>>)
    requires page.Valid()
    modifies page
    ensures page.Valid() && page.nextSerial >= old(page.nextSerial)
    ensures LastMessageOf(dom).Thrown? ==> r == Thrown(NoBubbleError) && unchanged(page)
    ensures LastMessageOf(dom).Ok? ==>
            var o := Attempt(LastMessageOf(dom).value, world);
            var area := ComposeArea(world.composeQuery);
            && r == Ok(Report(o, area))
            && page.suggestions == BoxesAfter(o, area, old(page.suggestions), old(page.nextSerial))
  {
    var lastMessage := GetLastMessage(dom);
    if lastMessage.Thrown? {
      return Thrown(lastMessage.message);
    }
    var notices := RetrieveFor(lastMessage.value, world, page);
    r := Ok(notices);
  }

  /** Lines 217-248 of `retrieveMemories`, once the last message has been read: the notices shown
      are those of `Report`, and only an answer touches the suggestion boxes. */
  method RetrieveFor(lastMessage: Option<Message>, world: World, page: Page) returns (notices: seq<Notice>)
    requires page.Valid()
    modifies page
    ensures page.Valid() && page.nextSerial >= old(page.nextSerial)
    ensures var o := Attempt(lastMessage, world);
            var area := ComposeArea(world.composeQuery);
            && notices == Report(o, area)
            && page.suggestions == BoxesAfter(o, area, old(page.suggestions), old(page.nextSerial))
  {
    var outcome := Attempt(lastMessage, world);
    if outcome.NoMessage? {
      return [Notice(Warning, NoMessageWarning)];
    }
    ghost var area := ComposeArea(world.composeQuery);
    notices := [Notice(Info, RetrievingInfo)];
    if outcome.NotSignedIn? {
      notices := notices + [Notice(Error, SignInError)];
    } else if outcome.Failed? {
      notices := notices + [Notice(Error, "Error: " + outcome.reason)];
    } else {
      notices := notices + [Notice(Success, RetrievedSuccess)];
      assert notices == [Notice(Info, RetrievingInfo), Notice(Success, RetrievedSuccess)];
      var placementNotices, thrown := page.CreateSuggestedReply(SuggestionText(outcome.memories.answer), outcome.memories, world.composeQuery);
      // an error thrown while the box is built is caught by the same `catch`
      notices := notices + placementNotices;
      if thrown.Some? {
        notices := notices + [Notice(Error, "Error: " + thrown.value)];
      }
      ReportOfAnswer(outcome, area);
    }
  }

  /** The notices of an answered retrieval, in the order they are shown. */
  lemma ReportOfAnswer(o: Outcome, area: Option<Element>)
    requires o.Answered?
    ensures Report(o, area) ==
            [Notice(Info, RetrievingInfo), Notice(Success, RetrievedSuccess)]
            + PlacementNotices(o.memories, area)
            + (if PlacementError(o.memories, area).Some?
               then [Notice(Error, "Error: " + PlacementError(o.memories, area).value)] else [])
  {
  }

  /** A request goes out only for a non-empty message, to the memory API on the configured host,
      with both credential reads valid; the query it carries is the message text. */
  lemma RequestOnlyForMessage(msg: Option<Message>, w: World)
    requires Sent(Attempt(msg, w)).Some?
    ensures msg.Some? && msg.value.text != ""
    ensures GetStoredAuth(w.firstAuth).Authenticated? && GetStoredAuth(w.secondAuth).Authenticated?
    ensures StartsWith(Sent(Attempt(msg, w)).value.url, ApiBaseUrl + QueryPrefix + msg.value.text)
  {
    var url := Sent(Attempt(msg, w)).value.url;
    var prefix := ApiBaseUrl + QueryPrefix + msg.value.text;
    assert url == prefix + "&top_k=5";
    assert url[..|prefix|] == prefix;
  }
}

=== FILE: wrappers.dfy ===
/** Option and a JavaScript-flavoured Result: a call either returns a value or throws an Error. */
module Wrappers {

  datatype Option<+T> = None | Some(value: T)

  /** The outcome of a JavaScript call: it returned `value`, or it threw an Error whose
      `message` is given. */
  datatype Result<+T> = Ok(value: T) | Thrown(message: string)
}
